=== FILE: README.md ===
# VirtualList — a Dafny model of its windowing and infinite-scroll logic

VirtualList is a pair of React hooks for long scrollable lists:

- `useVirtual` renders only a window of the items. It picks the first item from the container's scroll offset. It sizes a placeholder element as if every item were rendered. It places each rendered element at its item's absolute position.
- `useScroll` calls a callback whenever the bottom of the visible area reaches a threshold percentage of the scrollable height. Its `disable` and `enable` handles switch that off and on.

The test page adds two helpers. `getNumList` builds an integer range. `createAsyncThrottle` wraps the page's `fetchMore` so that only one fetch runs at a time.

This project models that logic as pure functions and small state machines, and proves properties about them. Pixel quantities are `real`.

- `JsValues` (`js_values.dfy`) covers JavaScript optional arguments with destructuring defaults (`Maybe`). It also covers the index arithmetic of `Array.prototype.slice`, including negative relative indices.
- `Virtual` (`virtual.dfy`) covers `useVirtual`:
  - the initial slice;
  - `Math.floor(scrollTop / itemHeight)`;
  - the rendered slice;
  - the placeholder height `items.length * itemHeight`;
  - the `top`/`height` style of every item element.
  One scroll recalculation is `Recalculate`. It includes the early returns when the container or its placeholder is missing.
- `Scroll` (`scroll.dfy`) covers `useScroll`: `divideToPercent`, `isLowerOrEqual`, the `onScroll` decision, and the `disabled` flag with `disable`/`enable`.
- `Throttle` (`throttle.dfy`) covers the `paused` gate of `createAsyncThrottle`. It is a state machine with three events: a call, resolution of `f`'s promise, and rejection of it.
- `NumList` (`num_list.dfy`) covers both overloads of `getNumList`, with a while loop and its invariants. It also covers integer `toString` and `defaultState`.
- `DemoPage` (`demo_page.dfy`) covers the test page's wiring from trigger to throttle, as if the page rendered (see "## Left out"). Scroll events go to a trigger at 90 percent whose callback is the throttled `fetchMore`.

Facts about the code that shape the model:

- Every item is `itemHeight` tall; there are no per-item height overrides. The first index is `Math.floor(scrollTop / itemHeight)`.
- `useScroll` has no in-flight guard of its own. The only guard is the test page's `createAsyncThrottle`. It clears `paused` only when `f` resolves, so a rejection leaves it paused for good.

## Model

| member | source | states |
|---|---|---|
| JsValues.Slice | lib/hooks.ts:154 | `slice` keeps at most the array's length. It is empty once the start is at or past the end. For non-negative arguments it holds exactly `max(min(end, len) - start, 0)` elements, the k-th being `s[start + k]`. With a negative start and `end == len` it is the suffix from `max(len + start, 0)`; other negative arguments are covered by `JsValues.SliceNegative`. |
| JsValues.SliceNegative | lib/hooks.ts:154 | A negative start or end of `slice` behaves as the position it counts back to from the end, `max(len + arg, 0)`. |
| Virtual.FirstIndex | lib/hooks.ts:148-151 | The first index is the item whose box contains the scroll offset: `i * itemHeight <= scrollTop < (i + 1) * itemHeight`. It is non-negative for a non-negative offset. |
| Virtual.FirstIndexUnique | lib/hooks.ts:148-151 | No other index satisfies that bracketing, so the first index is determined by it. |
| Virtual.FirstIndexOfTop | lib/hooks.ts:151 | Scrolling to the top of item `i`, `i * itemHeight`, makes `i` the first index. This is a round trip between item index and pixel offset. |
| Virtual.FirstIndexMonotone | lib/hooks.ts:151 | Scrolling further down never decreases the first index. |
| Virtual.Window | lib/hooks.ts:154 | The rendered slice is empty when the first index is at or past the end. Otherwise, for a non-negative first index and window size, it is the items from the first index on, `min(firstIndex + windowSize, len) - firstIndex` of them, so at most `windowSize`. |
| Virtual.InitialItems | lib/hooks.ts:122-125 | Before any scroll, the state is the prefix `items[..min(windowSize, len)]`. `windowSize` defaults to 7. |
| Virtual.SpacerIsStackOfItems | lib/hooks.ts:137-140 | `n * itemHeight` equals the height of `n` items stacked one below the other. With `n = items.length` this is the placeholder height. With `n = i` it says item `i` starts where the items before it end, as the comment at lib/hooks.ts:164 says. |
| Virtual.Layout | lib/hooks.ts:166-172 | One style per item element, each one item tall. The first starts at the first index's top. Each later element starts exactly where the previous one ends. |
| Virtual.TilingPlacesItems | lib/hooks.ts:163-171 | Any tiling that starts at the first index's top with one-item-tall boxes puts box `k` at the top of item `firstIndex + k`. |
| Virtual.Recalculate | lib/hooks.ts:130-173 | A recalculation happens exactly when the container exists and holds a placeholder. The frame's first index brackets the scroll offset, and every item element gets a style. |
| Virtual.NextFinalItems | lib/hooks.ts:130-154 | A missing container or placeholder leaves the rendered items unchanged. Otherwise they become `items.slice(firstIndex, firstIndex + windowSize)`, with `firstIndex` the floor of the scroll offset over `itemHeight`. |
| Virtual.RenderedSlice | lib/hooks.ts:151-154 | After a scroll to a non-negative offset, the rendered items are consecutive items starting at the first index. There are at most `windowSize` of them, and none once the first index is past the end. |
| Virtual.ElementPlacement | lib/hooks.ts:166-171 | Element `k` gets `top = (firstIndex + k) * itemHeight` and `height = itemHeight`. Consecutive tops differ by `itemHeight`, and the first top is at or above `scrollTop`. |
| Virtual.SpacerIndependentOfScroll | lib/hooks.ts:140-159 | The placeholder height equals the stacked height of all items. That amount does not involve the scroll offset, so it is the same at every scroll position. |
| Virtual.RenderedWithinSpacer | lib/hooks.ts:140-171 | For a non-negative scroll offset, every rendered item's box lies between 0 and the placeholder height. An overscroll above the top is not covered: see `Virtual.OverscrollAboveTop`. |
| Virtual.OnlyFirstItemHoldsOffset | lib/hooks.ts:148-151 | The first index is the only item the scroll offset falls in, as the comment there says, so it is where the rendered window starts. Every item before it ends at or above the offset. Every item after it starts below the offset. |
| Virtual.OverscrollAboveTop | lib/hooks.ts:151-154 | An offset less than one item above the top gives first index -1. `slice` counts that from the end: nothing is rendered when the list holds at least `windowSize` items, and only the last item when it holds fewer. |
| Virtual.InitialMatchesTop | lib/hooks.ts:125-154 | A recalculation at offset 0 renders exactly the initial state. |
| Scroll.DivideToPercent | lib/hooks.ts:13 | The result is `amount` as a percentage of `total`: `p * total == amount * 100`. |
| Scroll.IsLowerOrEqual | lib/hooks.ts:15 | `a - b <= 0` holds exactly when `a <= b`. |
| Scroll.ReachesThreshold | lib/hooks.ts:56-59 | The threshold is reached iff `threshold * scrollHeight <= (scrollTop + clientHeight) * 100`, for positive `scrollHeight`. |
| Scroll.OnScroll | lib/hooks.ts:50-63 | The callback runs iff the hook is not disabled and the threshold is reached. |
| Scroll.DefaultThresholdIsNinety | lib/hooks.ts:22-61 | Called without a threshold, the hook fires iff it is enabled and `90 * scrollHeight <= (scrollTop + clientHeight) * 100`. |
| Scroll.OnScrollMonotone | lib/hooks.ts:56-61 | If the callback runs at one offset, it runs at every larger offset when the other metrics are unchanged. |
| Scroll.DisableEnable | lib/hooks.ts:31-51 | While disabled, the callback never runs. `disable` then `enable` restores exactly the threshold decision. Both handles are idempotent. |
| Scroll.Run | lib/hooks.ts:50-66 | Over a sequence of events, only scrolls run the callback, each at most once. Scrolls alone leave the `disabled` flag as it was. When the last event is a `disable` or an `enable`, it decides the flag. |
| Scroll.DisabledStaysSilent | lib/hooks.ts:31-51 | With the hook disabled and no `enable` among the events, no scroll ever runs the callback, and the hook stays disabled. |
| Throttle.Next | __test__/index.tsx:24-31 | `f` is invoked iff a call arrives while not paused. A call while paused changes nothing. Invoking sets `paused`. Only resolution of the outstanding promise clears `paused`. The invariant that an outstanding promise keeps the gate paused is kept. Under that invariant, `f` is invoked only when no earlier promise is outstanding, so two calls of `f` are never in flight at once. |
| Throttle.AtMostOneInFlight | __test__/index.tsx:21-31 | Over any sequence of events, `f` is invoked at most once more than promises resolve, and not even that once if the gate starts paused. The invariant is kept. |
| Throttle.CallsWhilePaused | __test__/index.tsx:25 | Any number of calls while paused invoke nothing and leave the gate unchanged. |
| Throttle.BurstInvokesOnce | __test__/index.tsx:25-27 | `n > 0` calls to an unpaused gate with no settlement invoke `f` exactly once and leave the gate paused. |
| Throttle.RejectedStaysPaused | __test__/index.tsx:27-29 | After a rejection the gate is paused with nothing in flight, and no later event ever invokes `f`. |
| Throttle.SettleThenCall | __test__/index.tsx:26-29 | After resolution, the next call invokes `f` again. After rejection, the gate is stuck paused. |
| NumList.Range | __test__/index.tsx:9-18 | The reference range `[first, last)` has `max(last - first, 0)` elements, the k-th being `first + k`. |
| NumList.GetNumList | __test__/index.tsx:9-18 | The while loop returns exactly the reference range, with `max(last - first, 0)` elements. |
| NumList.GetNumListTo | __test__/index.tsx:4-7 | The one-argument overload returns the range `[0, last)`. |
| NumList.RangeShape | __test__/index.tsx:13-16 | The range is empty iff `first >= last`. Its elements lie in `[first, last)`, consecutive ones differ by exactly 1, and it runs from `first` to `last - 1`. |
| NumList.NatToString | __test__/index.tsx:40 | Decimal notation is a non-empty string of digits with no leading zero. |
| NumList.IntToString | __test__/index.tsx:40 | An integer's string starts with `-` exactly when the integer is negative. The digits after the sign read back as the integer's magnitude: a round trip through `DecimalValue`. |
| NumList.DecimalRoundTrip | __test__/index.tsx:40 | Reading the decimal notation back gives the number. |
| NumList.DefaultState | __test__/index.tsx:36-40 | `defaultState` is the strings "0" through "9". |
| DemoPage.Step | __test__/index.tsx:56-70 | `fetchMore`'s body runs exactly for a scroll that reaches the 90 percent threshold while the gate is open. It keeps the gate's invariant and runs only when no earlier fetch is outstanding, so two fetches are never in flight at once. |
| DemoPage.GateEvents | __test__/index.tsx:56-70 | The throttle sees exactly as many resolutions as the page's fetch has. |
| DemoPage.Run | __test__/index.tsx:56-70 | Over any sequence of events, the throttle's gate stays valid: an outstanding fetch always keeps it paused. |
| DemoPage.RunIsGateRun | __test__/index.tsx:56-70 | The page's run equals the throttle's run over the calls the trigger makes. |
| DemoPage.AtMostOneFetchInFlight | __test__/index.tsx:56-70 | However the container is scrolled, `fetchMore` runs at most once more than there are resolution events. Resolutions that find no fetch outstanding are counted too. |
| DemoPage.ReachingScrollsAreCalls | __test__/index.tsx:56-70 | Scrolls that all reach the threshold reach the throttle as plain calls. |
| DemoPage.ScrollBurstFetchesOnce | __test__/index.tsx:56-70 | Any burst of scrolls past the threshold before the fetch settles runs `fetchMore` exactly once. |

## Left out

- React state, refs, effects and dependency arrays are not modelled: `useRef`, `useState`, `useEffect`, `setRef`, re-subscription when dependencies change. `finalItems` is modelled as a value that each run of `calculateThenApplyStyle` replaces (`Virtual.NextFinalItems`). That function runs on every scroll event, once on mount (lib/hooks.ts:175), and again whenever `items`, `itemHeight` or `windowSize` change (lib/hooks.ts:182), for instance after `fetchMore` appends an item. `NextFinalItems` models each of these runs alike.
- DOM work is not modelled: adding and removing listeners, `querySelector`/`querySelectorAll`, `applyStyle`, CSS strings, and `position: relative` on the container. The container is a parameter carrying its scroll offset, whether it holds a placeholder, and how many item elements it holds. Styles go to that many elements, as in the code. The code styles the elements already in the DOM, which a React render may not yet have brought in line with the new slice. The model does not relate that count to the slice's length.
- A negative scroll offset is modelled as JavaScript evaluates it: `Virtual.OverscrollAboveTop` shows what is rendered. Whether a browser reports such an offset for the container is outside the model.
- The `!container` check inside `onScroll` is not modelled. The listener is only attached once a container exists, so that branch is dead.
- Floating point is not modelled; pixels are exact reals. `itemHeight` must be positive and `scrollHeight` must be positive. With zero, JavaScript yields `Infinity` or `NaN`.
- `windowSize` is an integer. A fractional window size, which `slice` would truncate, is not modelled.
- `Scroll.Run`: bounds the number of callbacks by the number of scrolls and fixes the final `disabled` flag, but does not give the exact callback count of a mixed trace. The exact behaviour is stated by `Scroll.OnScroll` per event and by `Scroll.DisabledStaysSilent`.
- `getNumList` is modelled over unbounded integers, and the model always terminates. JavaScript numbers could be fractional, and the loop would then step from a fractional start. From 2^53 upward `first += 1` leaves `first` unchanged, and `last` may be `Infinity`; the source loop then never ends.
- `NumList.IntToString`: only decimal notation is modelled. `toString` switches to exponent notation from 1e21 upwards, which `defaultState` never reaches.
- Promise and `setTimeout` timing, and the body of `fetchMore` (its counter and the appended item), are not modelled. The settlement of `f` is an abstract event. The promise the throttled wrapper returns is not modelled. It resolves to `undefined` unless `f()` throws synchronously. In that case the wrapper throws and `paused` stays `true`, a case the model does not cover.
- The JSX of the test page is not modelled.
- The test page does not fit the modelled hook. It passes a `weirdHeight` option and destructures `finalItems` and `wrapperStyle` from `useVirtual`'s result. The hook ignores that option and returns a plain array, so on the page `finalItems` is `undefined` and `finalItems.map` fails on the first render. The page's list rendering is therefore not modelled, and per-item height overrides are not part of this model. `DemoPage` models the wiring at __test__/index.tsx:56-70 as if the render succeeded. With the hook shown, the page's first render throws before the container mounts, so `useScroll` never attaches its listener and, on the page as written, `fetchMore` is never called.


=== FILE: demo_page.dfy ===
/** The test page (`Test`): the container's scroll events go to a threshold
    trigger at 90 percent whose callback is the throttled `fetchMore`. */
module DemoPage {
  import Scroll
  import Throttle

  /** The threshold the page passes to the trigger. */
  const Threshold: real := 90.0

  /** A scroll of the container, or the settlement of `fetchMore`'s promise. */
  datatype Event = Scrolled(metrics: Scroll.Metrics) | FetchResolved | FetchRejected

  /** The page never calls `disable` or `enable`, so its trigger stays as created;
      the throttle's gate is the page's only changing state. */
  const Trigger: Scroll.Trigger := Scroll.Created

  /** Every scroll event in the sequence has a positive scrollable height. */
  ghost predicate WellFormed(events: seq<Event>)
  {
    forall i :: 0 <= i < |events| && events[i].Scrolled? ==> events[i].metrics.scrollHeight > 0.0
  }

  lemma WellFormedTail(events: seq<Event>)
    requires |events| > 0 && WellFormed(events)
    ensures WellFormed(events[1..])
  {
    forall i | 0 <= i < |events[1..]| && events[1..][i].Scrolled?
      ensures events[1..][i].metrics.scrollHeight > 0.0
    {
      assert events[1..][i] == events[i + 1];
    }
  }

  /** One event: a scroll that reaches the threshold calls the throttled
      `fetchMore`; a settlement goes to the throttle. `fetchMore` runs only
      when no earlier fetch is outstanding. */
  function Step(g: Throttle.Gate, e: Event): (s: Throttle.Step)
    requires e.Scrolled? ==> e.metrics.scrollHeight > 0.0
    ensures s.invoked <==> e.Scrolled? && Scroll.ReachesThreshold(Threshold, e.metrics) && !g.paused
    ensures Throttle.Valid(g) ==> Throttle.Valid(s.gate)
    ensures Throttle.Valid(g) && s.invoked ==> !g.pending
  {
    match e
    case Scrolled(m) => if Scroll.OnScroll(Trigger, Threshold, m) then Throttle.Next(g, Throttle.Call) else Throttle.Step(g, false)
    case FetchResolved => Throttle.Next(g, Throttle.Resolve)
    case FetchRejected => Throttle.Next(g, Throttle.Reject)
  }

  /** The gate after a sequence of events, and how many times `fetchMore`
      ran its body; a valid gate stays valid. */
  function Run(g: Throttle.Gate, events: seq<Event>): (r: (Throttle.Gate, nat))
    requires WellFormed(events)
    ensures Throttle.Valid(g) ==> Throttle.Valid(r.0)
    decreases |events|
  {
    if |events| == 0 then (g, 0)
    else
      WellFormedTail(events);
      var s := Step(g, events[0]);
      var (g', n) := Run(s.gate, events[1..]);
      (g', n + (if s.invoked then 1 else 0))
  }

  /** What the throttle sees of the page's events: a call for every scroll
      that reaches the threshold, and the settlements of the fetch. */
  function GateEvents(events: seq<Event>): (gs: seq<Throttle.Event>)
    requires WellFormed(events)
    ensures Throttle.Resolves(gs) == FetchResolves(events)
    decreases |events|
  {
    if |events| == 0 then []
    else
      WellFormedTail(events);
      var rest := GateEvents(events[1..]);
      match events[0]
      case Scrolled(m) => if Scroll.ReachesThreshold(Threshold, m) then [Throttle.Call] + rest else rest
      case FetchResolved => [Throttle.Resolve] + rest
      case FetchRejected => [Throttle.Reject] + rest
  }

  /** How many events of the sequence resolve the fetch. */
  function FetchResolves(events: seq<Event>): nat
    decreases |events|
  {
    if |events| == 0 then 0 else FetchResolves(events[1..]) + (if events[0] == FetchResolved then 1 else 0)
  }

  /** The page behaves as its throttle driven by the calls the trigger makes. */
  lemma {:induction false} RunIsGateRun(g: Throttle.Gate, events: seq<Event>)
    requires WellFormed(events)
    ensures Run(g, events) == Throttle.Run(g, GateEvents(events))
    decreases |events|
  {
    if |events| > 0 {
      WellFormedTail(events);
      var rest := GateEvents(events[1..]);
      var s := Step(g, events[0]);
      RunIsGateRun(s.gate, events[1..]);
      match events[0]
      case Scrolled(m) =>
        if Scroll.ReachesThreshold(Threshold, m) {
          assert GateEvents(events) == [Throttle.Call] + rest;
          assert ([Throttle.Call] + rest)[1..] == rest;
        } else {
          assert GateEvents(events) == rest;
        }
      case FetchResolved =>
        assert GateEvents(events) == [Throttle.Resolve] + rest;
        assert ([Throttle.Resolve] + rest)[1..] == rest;
      case FetchRejected =>
        assert GateEvents(events) == [Throttle.Reject] + rest;
        assert ([Throttle.Reject] + rest)[1..] == rest;
    }
  }

  /** However the container is scrolled, `fetchMore` runs at most once more
      than there are resolution events. That `fetchMore` only runs when no
      earlier fetch is outstanding is `Step`'s contract. */
  lemma AtMostOneFetchInFlight(events: seq<Event>)
    requires WellFormed(events)
    ensures Run(Throttle.Fresh, events).1 <= FetchResolves(events) + 1
  {
    RunIsGateRun(Throttle.Fresh, events);
    Throttle.AtMostOneInFlight(Throttle.Fresh, GateEvents(events));
  }

  /** Scrolls that all reach the threshold reach the throttle as plain calls. */
  lemma {:induction false} ReachingScrollsAreCalls(events: seq<Event>)
    requires WellFormed(events)
    requires forall i :: 0 <= i < |events| ==> events[i].Scrolled? && Scroll.ReachesThreshold(Threshold, events[i].metrics)
    ensures GateEvents(events) == Throttle.Calls(|events|)
    decreases |events|
  {
    if |events| > 0 {
      WellFormedTail(events);
      assert forall i :: 0 <= i < |events[1..]| ==> events[1..][i] == events[i + 1];
      ReachingScrollsAreCalls(events[1..]);
      assert Throttle.Calls(|events|) == [Throttle.Call] + Throttle.Calls(|events| - 1);
    }
  }

  /** Any burst of scrolls past the threshold before the fetch settles runs
      `fetchMore`'s body exactly once. */
  lemma ScrollBurstFetchesOnce(events: seq<Event>)
    requires WellFormed(events) && |events| > 0
    requires forall i :: 0 <= i < |events| ==> events[i].Scrolled? && Scroll.ReachesThreshold(Threshold, events[i].metrics)
    ensures Run(Throttle.Fresh, events).1 == 1
  {
    RunIsGateRun(Throttle.Fresh, events);
    ReachingScrollsAreCalls(events);
    Throttle.BurstInvokesOnce(Throttle.Fresh, |events|);
  }
}

=== FILE: js_values.dfy ===
/** JavaScript values the hooks rely on: optional arguments with destructuring
    defaults, and the index arithmetic of `Array.prototype.slice`. */
module JsValues {

  /** An optional argument or configuration field: absent (`undefined`) or given.
      A destructuring default such as `windowSize = 7` replaces only `undefined`. */
  datatype Maybe<+T> = Undefined | Defined(value: T) {

    /** The value a destructuring default yields. */
    function OrDefault(default: T): T
    {
      match this
      case Defined(v) => v
      case Undefined => default
    }
  }

  function Min(a: int, b: int): int
  {
    if a < b then a else b
  }

  function Max(a: int, b: int): int
  {
    if a < b then b else a
  }

  /** The position `slice` derives from one of its arguments for an array of
      length `len`: a negative argument counts back from the end, and the
      result is clamped into `[0, len]`. */
  function RelativeIndex(i: int, len: nat): (k: nat)
    ensures k <= len
  {
    if i < 0 then Max(len + i, 0) else Min(i, len)
  }

  /** `s.slice(start, end)`: the elements from the relative start up to (not
      including) the relative end, empty when the end does not lie after the
      start. */
  function Slice<T>(s: seq<T>, start: int, end: int): (r: seq<T>)
    ensures |r| <= |s|
    ensures |s| <= start ==> r == []
    ensures 0 <= start && 0 <= end ==> |r| == Max(Min(end, |s|) - start, 0)
    ensures 0 <= start && 0 <= end ==> forall k :: 0 <= k < |r| ==> r[k] == s[start + k]
    ensures start < 0 && end == |s| ==> r == s[Max(|s| + start, 0)..]
  {
    var a := RelativeIndex(start, |s|);
    var b := RelativeIndex(end, |s|);
    if a < b then s[a..b] else []
  }

  /** A negative argument of `slice` behaves as the non-negative position it
      counts back to from the end of the array. */
  lemma SliceNegative<T>(s: seq<T>, start: int, end: int)
    ensures start < 0 ==> Slice(s, start, end) == Slice(s, Max(|s| + start, 0), end)
    ensures end < 0 ==> Slice(s, start, end) == Slice(s, start, Max(|s| + end, 0))
  {
  }

  /** Multiplying by a positive amount preserves order; used for comparisons
      between pixel offsets and percentages. */
  lemma ScaleMonotone(a: real, b: real, h: real)
    requires h > 0.0
    ensures a <= b <==> a * h <= b * h
    ensures a < b <==> a * h < b * h
  {
    if a <= b {
      assert (b - a) * h >= 0.0;
    } else {
      assert (a - b) * h > 0.0;
    }
  }
}

=== FILE: num_list.dfy ===
/** The list helpers of the test page: `getNumList`, the half-open integer
    range generator with its two overloads, and `defaultState`, the page's
    initial items — the numbers below `MAX_RANGE` turned into decimal strings. */
module NumList {
  import opened JsValues

  /** `MAX_RANGE`: how many items the page starts with. */
  const MaxRange: int := 10

  /** Reference definition of the half-open range `[first, last)`, counting up by one. */
  function Range(first: int, last: int): (r: seq<int>)
    ensures |r| == Max(last - first, 0)
    ensures forall k :: 0 <= k < |r| ==> r[k] == first + k
    decreases last - first
  {
    if first < last then [first] + Range(first + 1, last) else []
  }

  /** `getNumList(first, last)`: push `first`, `first + 1`, … while below `last`. */
  method GetNumList(first: int, last: int) returns (out: seq<int>)
    ensures out == Range(first, last)
    ensures |out| == Max(last - first, 0)
  {
    out := [];
    var next := first;
    while next < last
      invariant first <= next
      invariant next <= Max(first, last)
      invariant |out| == next - first
      invariant forall k :: 0 <= k < |out| ==> out[k] == first + k
    {
      out := out + [next];
      next := next + 1;
    }
    var expected := Range(first, last);
    assert |out| == |expected|;
    assert forall k :: 0 <= k < |out| ==> out[k] == expected[k];
  }

  /** `getNumList(last)`: the one-argument overload, counting from zero. */
  method GetNumListTo(last: int) returns (out: seq<int>)
    ensures out == Range(0, last)
  {
    out := GetNumList(0, last);
  }

  /** The range is empty exactly when `first >= last`; otherwise its elements
      lie in `[first, last)`, start at `first`, and consecutive ones differ by
      exactly one. */
  lemma RangeShape(first: int, last: int)
    ensures Range(first, last) == [] <==> last <= first
    ensures forall k :: 0 <= k < |Range(first, last)| ==> first <= Range(first, last)[k] < last
    ensures forall k :: 0 <= k < |Range(first, last)| - 1 ==> Range(first, last)[k + 1] == Range(first, last)[k] + 1
    ensures first < last ==> Range(first, last)[0] == first && Range(first, last)[|Range(first, last)| - 1] == last - 1
  {
  }

  function Digit(d: int): char
    requires 0 <= d < 10
  {
    "0123456789"[d]
  }

  function DigitValue(c: char): int
  {
    c as int - '0' as int
  }

  predicate IsDigits(s: string)
  {
    forall i :: 0 <= i < |s| ==> '0' <= s[i] <= '9'
  }

  /** Decimal notation of a natural number, without leading zeros. */
  function NatToString(n: nat): (s: string)
    ensures |s| > 0 && IsDigits(s)
    ensures |s| > 1 ==> s[0] != '0'
    ensures n < 10 ==> |s| == 1
    decreases n
  {
    if n < 10 then [Digit(n)] else NatToString(n / 10) + [Digit(n % 10)]
  }

  /** `Number.prototype.toString()` of an integer: an optional minus sign
      followed by the decimal digits of the magnitude. */
  function IntToString(i: int): (s: string)
    ensures |s| > 0
    ensures (s[0] == '-') <==> i < 0
    ensures 0 <= i ==> IsDigits(s) && DecimalValue(s) == i
    ensures i < 0 ==> IsDigits(s[1..]) && DecimalValue(s[1..]) == -i
  {
    if i < 0 then
      var d := NatToString(-i);
      DecimalRoundTrip(-i);
      assert ("-" + d)[1..] == d;
      "-" + d
    else
      DecimalRoundTrip(i);
      NatToString(i)
  }

  /** The number a string of decimal digits denotes. */
  function DecimalValue(s: string): nat
    requires IsDigits(s)
  {
    if |s| == 0 then 0 else 10 * DecimalValue(s[..|s| - 1]) + DigitValue(s[|s| - 1])
  }

  /** Reading the decimal notation back gives the number: the notation loses nothing. */
  lemma {:induction false} DecimalRoundTrip(n: nat)
    ensures DecimalValue(NatToString(n)) == n
    decreases n
  {
    var s := NatToString(n);
    if n >= 10 {
      assert s[..|s| - 1] == NatToString(n / 10);
      DecimalRoundTrip(n / 10);
    }
  }

  /** `defaultState`: `getNumList(MAX_RANGE)` with every number turned into a
      string — the strings "0" through "9". */
  method DefaultState() returns (state: seq<string>)
    ensures state == ["0", "1", "2", "3", "4", "5", "6", "7", "8", "9"]
  {
    var nums := GetNumListTo(MaxRange);
    state := seq(|nums|, i requires 0 <= i < |nums| => IntToString(nums[i]));
  }
}

=== FILE: scroll.dfy ===
/** The threshold trigger (`useScroll`): on every scroll event of the
    container, the callback runs when the bottom of the visible area has
    reached `threshold` percent of the scrollable height, unless the hook has
    been disabled. The `disabled` flag, toggled by `disable` and `enable`, is
    the hook's only state. */
module Scroll {
  import opened JsValues

  /** Percentage used when the hook is called without a threshold. */
  const DefaultThreshold: real := 90.0

  /** The container's scroll metrics, read on every scroll event. */
  datatype Metrics = Metrics(scrollTop: real, scrollHeight: real, clientHeight: real)

  /** The hook's mutable state: whether calling the callback is disabled. */
  datatype Trigger = Trigger(disabled: bool)

  /** Events the hook reacts to: a scroll of the container, or a call of the
      `disable` or `enable` handle it returns. */
  datatype Event = Scrolled(metrics: Metrics) | DisableCalled | EnableCalled

  /** State right after the hook is created: enabled. */
  const Created: Trigger := Trigger(false)

  function EffectiveThreshold(threshold: Maybe<real>): real
  {
    threshold.OrDefault(DefaultThreshold)
  }

  /** `amount` as a percentage of `total`. */
  function DivideToPercent(amount: real, total: real): (p: real)
    requires total != 0.0
    ensures p * total == amount * 100.0
  {
    (amount * 100.0) / total
  }

  /** `a - b <= 0`: whether `a` does not exceed `b`. */
  function IsLowerOrEqual(a: real, b: real): (r: bool)
    ensures r <==> a <= b
  {
    a - b <= 0.0
  }

  /** Whether a scroll event reaches the threshold: the bottom of the visible
      area, as a percentage of the scrollable height, is at least `threshold`.
      Stated without division: `threshold * scrollHeight <= (scrollTop + clientHeight) * 100`. */
  function ReachesThreshold(threshold: real, m: Metrics): (reached: bool)
    requires m.scrollHeight > 0.0
    ensures reached <==> threshold * m.scrollHeight <= (m.scrollTop + m.clientHeight) * 100.0
  {
    var p := DivideToPercent(m.scrollTop + m.clientHeight, m.scrollHeight);
    ScaleMonotone(threshold, p, m.scrollHeight);
    IsLowerOrEqual(threshold, p)
  }

  /** `onScroll`: whether this scroll event calls the callback. */
  function OnScroll(t: Trigger, threshold: real, m: Metrics): (fires: bool)
    requires m.scrollHeight > 0.0
    ensures fires <==> !t.disabled && threshold * m.scrollHeight <= (m.scrollTop + m.clientHeight) * 100.0
  {
    if t.disabled then false else ReachesThreshold(threshold, m)
  }

  /** `disable`: stop calling the callback. */
  function Disable(t: Trigger): Trigger
  {
    Trigger(true)
  }

  /** `enable`: call the callback again. */
  function Enable(t: Trigger): Trigger
  {
    Trigger(false)
  }

  /** Called without a threshold, the hook fires once the bottom of the
      visible area reaches 90 percent of the scrollable height. */
  lemma DefaultThresholdIsNinety(t: Trigger, m: Metrics)
    requires m.scrollHeight > 0.0
    ensures OnScroll(t, EffectiveThreshold(Undefined), m) <==>
      !t.disabled && 90.0 * m.scrollHeight <= (m.scrollTop + m.clientHeight) * 100.0
  {
  }

  /** Scrolling further down, with the other metrics unchanged, never stops
      the callback from firing. */
  lemma OnScrollMonotone(t: Trigger, threshold: real, m: Metrics, scrollTop': real)
    requires m.scrollHeight > 0.0
    requires m.scrollTop <= scrollTop'
    requires OnScroll(t, threshold, m)
    ensures OnScroll(t, threshold, m.(scrollTop := scrollTop'))
  {
  }

  /** Disabling silences the callback at every position; enabling afterwards
      restores exactly the threshold decision; both handles are idempotent. */
  lemma DisableEnable(t: Trigger, threshold: real, m: Metrics)
    requires m.scrollHeight > 0.0
    ensures !OnScroll(Disable(t), threshold, m)
    ensures OnScroll(Enable(Disable(t)), threshold, m) <==> ReachesThreshold(threshold, m)
    ensures Disable(Disable(t)) == Disable(t)
    ensures Enable(Enable(t)) == Enable(t)
  {
  }

  /** Every scroll event in the sequence has a positive scrollable height. */
  ghost predicate WellFormed(events: seq<Event>)
  {
    forall i :: 0 <= i < |events| && events[i].Scrolled? ==> events[i].metrics.scrollHeight > 0.0
  }

  lemma WellFormedTail(events: seq<Event>)
    requires |events| > 0 && WellFormed(events)
    ensures WellFormed(events[1..])
  {
    forall i | 0 <= i < |events[1..]| && events[1..][i].Scrolled?
      ensures events[1..][i].metrics.scrollHeight > 0.0
    {
      assert events[1..][i] == events[i + 1];
    }
  }

  /** How many events of the sequence are scrolls. */
  function Scrolls(events: seq<Event>): nat
    decreases |events|
  {
    if |events| == 0 then 0 else Scrolls(events[1..]) + (if events[0].Scrolled? then 1 else 0)
  }

  /** The state after a sequence of events, and how many times the callback
      ran: only scrolls run it, each at most once; scrolls alone leave the
      state as it was; the last `disable` or `enable` decides the state. */
  function Run(t: Trigger, threshold: real, events: seq<Event>): (r: (Trigger, nat))
    requires WellFormed(events)
    ensures r.1 <= Scrolls(events)
    ensures (forall i :: 0 <= i < |events| ==> events[i].Scrolled?) ==> r.0 == t
    ensures |events| > 0 && events[|events| - 1].DisableCalled? ==> r.0.disabled
    ensures |events| > 0 && events[|events| - 1].EnableCalled? ==> !r.0.disabled
    decreases |events|
  {
    if |events| == 0 then (t, 0)
    else
      var e := events[0];
      WellFormedTail(events);
      assert |events| > 1 ==> events[1..][|events[1..]| - 1] == events[|events| - 1];
      match e
      case DisableCalled => Run(Disable(t), threshold, events[1..])
      case EnableCalled => Run(Enable(t), threshold, events[1..])
      case Scrolled(m) =>
        var (t', n) := Run(t, threshold, events[1..]);
        (t', n + (if OnScroll(t, threshold, m) then 1 else 0))
  }

  /** While the hook stays disabled — no `enable` among the events — the
      callback never runs, wherever the container is scrolled. */
  lemma {:induction false} DisabledStaysSilent(t: Trigger, threshold: real, events: seq<Event>)
    requires WellFormed(events)
    requires t.disabled
    requires forall i :: 0 <= i < |events| ==> !events[i].EnableCalled?
    ensures Run(t, threshold, events) == (t, 0)
    decreases |events|
  {
    if |events| > 0 {
      WellFormedTail(events);
      assert forall i :: 0 <= i < |events[1..]| ==> !events[1..][i].EnableCalled? by {
        forall i | 0 <= i < |events[1..]|
          ensures !events[1..][i].EnableCalled?
        {
          assert events[1..][i] == events[i + 1];
        }
      }
      DisabledStaysSilent(t, threshold, events[1..]);
    }
  }
}

=== FILE: throttle.dfy ===
/** The async throttle of the test page (`createAsyncThrottle`): a wrapper
    around an asynchronous action `f` that ignores calls while an earlier call
    of `f` is still paused on. The `paused` flag is set when `f` is invoked and
    cleared only when `f`'s promise resolves; a rejected promise has no
    handler, so it leaves the wrapper paused for good. */
module Throttle {

  /** `paused` is the wrapper's flag; `pending` records whether the promise of
      the last invocation of `f` is still unsettled (the environment's side). */
  datatype Gate = Gate(paused: bool, pending: bool)

  /** A call of the wrapper, or the settlement of `f`'s outstanding promise. */
  datatype Event = Call | Resolve | Reject

  /** The gate after one event, and whether the event invoked `f`. */
  datatype Step = Step(gate: Gate, invoked: bool)

  /** The gate a freshly created wrapper starts with. */
  const Fresh: Gate := Gate(false, false)

  /** An outstanding promise always keeps the wrapper paused. */
  predicate Valid(g: Gate)
  {
    g.pending ==> g.paused
  }

  /** One event. A call while paused returns without invoking `f`; otherwise it
      sets `paused` and invokes `f`. Resolution of the outstanding promise
      clears `paused`; rejection only settles it. */
  function Next(g: Gate, e: Event): (s: Step)
    ensures Valid(g) ==> Valid(s.gate)
    ensures s.invoked <==> e == Call && !g.paused
    ensures e == Call && g.paused ==> s.gate == g
    ensures e == Call && !g.paused ==> s.gate.paused && s.gate.pending
    ensures !s.gate.paused && g.paused ==> e == Resolve && g.pending
    ensures Valid(g) && s.invoked ==> !g.pending
  {
    match e
    case Call =>
      if g.paused then Step(g, false)
      else Step(Gate(true, true), true)
    case Resolve =>
      if g.pending then Step(Gate(false, false), false) else Step(g, false)
    case Reject =>
      if g.pending then Step(Gate(g.paused, false), false) else Step(g, false)
  }

  /** The gate after a sequence of events, and how many times `f` was invoked. */
  function Run(g: Gate, events: seq<Event>): (r: (Gate, nat))
    decreases |events|
  {
    if |events| == 0 then (g, 0)
    else
      var s := Next(g, events[0]);
      var (g', n) := Run(s.gate, events[1..]);
      (g', n + (if s.invoked then 1 else 0))
  }

  /** How many events of the sequence resolve a promise. */
  function Resolves(events: seq<Event>): nat
    decreases |events|
  {
    if |events| == 0 then 0 else Resolves(events[1..]) + (if events[0] == Resolve then 1 else 0)
  }

  /** `Resolves` counts exactly the occurrences of `Resolve` in the sequence. */
  lemma {:induction false} ResolvesCountsOccurrences(events: seq<Event>)
    ensures Resolves(events) == multiset(events)[Resolve]
    decreases |events|
  {
    if |events| > 0 {
      assert events == [events[0]] + events[1..];
      ResolvesCountsOccurrences(events[1..]);
    }
  }

  /** `n` consecutive calls of the wrapper. */
  function Calls(n: nat): (es: seq<Event>)
    ensures |es| == n
    ensures forall i :: 0 <= i < n ==> es[i] == Call
  {
    seq(n, _ => Call)
  }

  /** At most one invocation of `f` is ever in flight: over any sequence of
      events, `f` is invoked at most once more than promises resolve (and not
      even that once when the wrapper starts out paused), and the gate stays
      valid. */
  lemma {:induction false} AtMostOneInFlight(g: Gate, events: seq<Event>)
    requires Valid(g)
    ensures Valid(Run(g, events).0)
    ensures Run(g, events).1 <= Resolves(events) + (if g.paused then 0 else 1)
    decreases |events|
  {
    if |events| > 0 {
      var s := Next(g, events[0]);
      AtMostOneInFlight(s.gate, events[1..]);
    }
  }

  /** Calls while paused change nothing and invoke nothing. */
  lemma {:induction false} CallsWhilePaused(g: Gate, n: nat)
    requires g.paused
    ensures Run(g, Calls(n)) == (g, 0)
  {
    if n > 0 {
      assert Calls(n)[1..] == Calls(n - 1);
      CallsWhilePaused(g, n - 1);
    }
  }

  /** Any positive number of calls to an unpaused wrapper, with no settlement
      in between, invokes `f` exactly once and leaves the wrapper paused. */
  lemma BurstInvokesOnce(g: Gate, n: nat)
    requires !g.paused && n > 0
    ensures Run(g, Calls(n)) == (Gate(true, true), 1)
  {
    assert Calls(n)[1..] == Calls(n - 1);
    CallsWhilePaused(Gate(true, true), n - 1);
  }

  /** After a rejection the wrapper is stuck: no later event ever invokes `f`. */
  lemma {:induction false} RejectedStaysPaused(events: seq<Event>)
    ensures Run(Gate(true, false), events) == (Gate(true, false), 0)
    decreases |events|
  {
    if |events| > 0 {
      RejectedStaysPaused(events[1..]);
    }
  }

  /** Once the outstanding promise resolves, the next call invokes `f` again;
      if it rejects instead, the wrapper is left paused with nothing in flight,
      the stuck state of `RejectedStaysPaused`. */
  lemma SettleThenCall(g: Gate)
    requires Valid(g) && g.pending
    ensures Next(Next(g, Resolve).gate, Call).invoked
    ensures Next(g, Reject).gate == Gate(true, false)
  {
  }
}

=== FILE: virtual.dfy ===
/** Fixed-height windowing (`useVirtual`): from the container's scroll offset,
    every item's common height and the window size, which slice of the items
    is rendered, how tall the placeholder (spacer) is, and where each rendered
    element is placed. Pixel quantities are reals. */
module Virtual {
  import opened JsValues

  /** Number of items rendered when the configuration leaves `windowSize` out. */
  const DefaultWindowSize: int := 7

  /** The hook's configuration; `windowSize` may be left undefined. */
  datatype Config<T> = Config(itemHeight: real, items: seq<T>, windowSize: Maybe<int>)
  {
    function WindowSize(): int
    {
      windowSize.OrDefault(DefaultWindowSize)
    }
  }

  /** What the hook reads from the container element when it recalculates:
      its scroll offset, whether it holds a placeholder element, and how many
      item elements it currently holds. */
  datatype Container = Container(scrollTop: real, hasPlaceholder: bool, itemElements: nat)

  /** Inline style the hook gives one item element. */
  datatype ItemStyle = ItemStyle(top: real, height: real)

  /** Outcome of one recalculation. */
  datatype Frame<T> = Frame(firstIndex: int, finalItems: seq<T>, spacerHeight: real, styles: seq<ItemStyle>)

  /** Distance from the container's top at which item `i` starts. */
  function Top(i: int, itemHeight: real): real
  {
    i as real * itemHeight
  }

  lemma TopStep(i: int, itemHeight: real)
    ensures Top(i + 1, itemHeight) == Top(i, itemHeight) + itemHeight
  {
    assert (i + 1) as real * itemHeight == i as real * itemHeight + 1.0 * itemHeight;
  }

  /** Sum of a sequence of heights: the extent of boxes stacked without gaps. */
  function Stack(heights: seq<real>): real
  {
    if |heights| == 0 then 0.0 else Stack(heights[..|heights| - 1]) + heights[|heights| - 1]
  }

  /** Every one of `n` items has the same height. */
  function UniformHeights(n: nat, itemHeight: real): (hs: seq<real>)
    ensures |hs| == n
    ensures forall k :: 0 <= k < n ==> hs[k] == itemHeight
  {
    seq(n, _ => itemHeight)
  }

  /** Item tops are ordered as their indices. */
  lemma TopOrder(i: int, j: int, itemHeight: real)
    requires itemHeight > 0.0
    ensures i <= j <==> Top(i, itemHeight) <= Top(j, itemHeight)
    ensures i < j <==> Top(i, itemHeight) < Top(j, itemHeight)
  {
    ScaleMonotone(i as real, j as real, itemHeight);
  }

  /** Floor division brackets its dividend between two consecutive multiples. */
  lemma FloorBrackets(scrollTop: real, itemHeight: real)
    requires itemHeight > 0.0
    ensures Top((scrollTop / itemHeight).Floor, itemHeight) <= scrollTop
    ensures scrollTop < Top((scrollTop / itemHeight).Floor + 1, itemHeight)
  {
    var q := scrollTop / itemHeight;
    var i := q.Floor;
    assert i as real <= q < (i + 1) as real;
    assert q * itemHeight == scrollTop;
    ScaleMonotone(i as real, q, itemHeight);
    ScaleMonotone(q, (i + 1) as real, itemHeight);
    assert scrollTop < (i + 1) as real * itemHeight;
    assert Top(i + 1, itemHeight) == (i + 1) as real * itemHeight;
  }

  /** An offset below the bottom of a box starting at or above 0 belongs to a
      non-negative index. */
  lemma NonNegativeIndex(scrollTop: real, itemHeight: real, i: int)
    requires itemHeight > 0.0 && 0.0 <= scrollTop < Top(i + 1, itemHeight)
    ensures 0 <= i
  {
    assert Top(0, itemHeight) == 0.0;
    TopOrder(0, i + 1, itemHeight);
  }

  /** Index of the first item with a piece of visible space:
      `Math.floor(scrollTop / itemHeight)`. It names the one item whose box
      contains the scroll offset. */
  function FirstIndex(scrollTop: real, itemHeight: real): (i: int)
    requires itemHeight > 0.0
    ensures Top(i, itemHeight) <= scrollTop < Top(i + 1, itemHeight)
    ensures 0.0 <= scrollTop ==> 0 <= i
  {
    var i := (scrollTop / itemHeight).Floor;
    FloorBrackets(scrollTop, itemHeight);
    if 0.0 <= scrollTop then NonNegativeIndex(scrollTop, itemHeight, i); i else i
  }

  /** The item whose box contains an offset is unique: `FirstIndex` is the only
      index `i` with `Top(i) <= scrollTop < Top(i + 1)`. */
  lemma FirstIndexUnique(scrollTop: real, itemHeight: real, i: int)
    requires itemHeight > 0.0
    requires Top(i, itemHeight) <= scrollTop < Top(i + 1, itemHeight)
    ensures FirstIndex(scrollTop, itemHeight) == i
  {
    var j := FirstIndex(scrollTop, itemHeight);
    assert Top(i, itemHeight) < Top(j + 1, itemHeight);
    assert Top(j, itemHeight) < Top(i + 1, itemHeight);
    TopOrder(i, j + 1, itemHeight);
    TopOrder(j, i + 1, itemHeight);
  }

  /** Scrolling to the top of item `i` makes `i` the first index. */
  lemma FirstIndexOfTop(i: int, itemHeight: real)
    requires itemHeight > 0.0
    ensures FirstIndex(Top(i, itemHeight), itemHeight) == i
  {
    TopOrder(i, i + 1, itemHeight);
    FirstIndexUnique(Top(i, itemHeight), itemHeight, i);
  }

  /** Scrolling further down never moves the first index up. */
  lemma FirstIndexMonotone(s: real, s': real, itemHeight: real)
    requires itemHeight > 0.0
    requires s <= s'
    ensures FirstIndex(s, itemHeight) <= FirstIndex(s', itemHeight)
  {
    var i, j := FirstIndex(s, itemHeight), FirstIndex(s', itemHeight);
    assert Top(i, itemHeight) < Top(j + 1, itemHeight);
    TopOrder(i, j + 1, itemHeight);
  }

  /** The first index is the only item the scroll offset falls in: every item
      before it ends at or above the offset, and every item after it starts
      below the offset. */
  lemma OnlyFirstItemHoldsOffset(scrollTop: real, h: real)
    requires h > 0.0
    ensures forall j {:trigger Top(j, h)} :: j <= FirstIndex(scrollTop, h) ==> Top(j, h) <= scrollTop
    ensures forall j {:trigger Top(j, h)} :: FirstIndex(scrollTop, h) < j ==> scrollTop < Top(j, h)
  {
    var first := FirstIndex(scrollTop, h);
    forall j {:trigger Top(j, h)} | j <= first
      ensures Top(j, h) <= scrollTop
    {
      TopOrder(j, first, h);
    }
    forall j {:trigger Top(j, h)} | first < j
      ensures scrollTop < Top(j, h)
    {
      TopOrder(first + 1, j, h);
    }
  }

  /** `items.slice(firstIndex, firstIndex + windowSize)`. */
  function Window<T>(items: seq<T>, firstIndex: int, windowSize: int): (r: seq<T>)
    ensures |items| <= firstIndex ==> r == []
    ensures 0 <= firstIndex && 0 <= windowSize ==> |r| == Max(Min(firstIndex + windowSize, |items|) - firstIndex, 0)
    ensures 0 <= firstIndex && 0 <= windowSize ==> |r| <= windowSize
    ensures 0 <= firstIndex && 0 <= windowSize ==> forall k :: 0 <= k < |r| ==> r[k] == items[firstIndex + k]
  {
    Slice(items, firstIndex, firstIndex + windowSize)
  }

  /** The state the hook starts from, before any recalculation:
      `items.slice(0, windowSize)`, the first `windowSize` items. */
  function InitialItems<T>(c: Config<T>): (r: seq<T>)
    ensures 0 <= c.WindowSize() ==> r == c.items[..Min(c.WindowSize(), |c.items|)]
  {
    Slice(c.items, 0, c.WindowSize())
  }

  /** Height given to the placeholder: `items.length * itemHeight`, the
      height of all items stacked one below the other. */
  function SpacerHeight<T>(items: seq<T>, itemHeight: real): (r: real)
    ensures r == Stack(UniformHeights(|items|, itemHeight))
  {
    SpacerIsStackOfItems(|items|, itemHeight);
    |items| as real * itemHeight
  }

  /** The placeholder is exactly as tall as all items stacked one below the other. */
  lemma {:induction false} SpacerIsStackOfItems(n: nat, itemHeight: real)
    ensures Stack(UniformHeights(n, itemHeight)) == n as real * itemHeight
  {
    if n > 0 {
      var hs := UniformHeights(n, itemHeight);
      assert hs[..n - 1] == UniformHeights(n - 1, itemHeight);
      SpacerIsStackOfItems(n - 1, itemHeight);
    }
  }

  /** Styles for the `count` item elements: each is one item tall and the k-th
      starts at `(firstIndex + k) * itemHeight`. The boxes tile: each one starts
      where the previous one ends. */
  function Layout(firstIndex: int, count: nat, itemHeight: real): (r: seq<ItemStyle>)
    ensures |r| == count
    ensures forall k :: 0 <= k < count ==> r[k].height == itemHeight
    ensures count > 0 ==> r[0].top == Top(firstIndex, itemHeight)
    ensures forall k :: 0 <= k < count - 1 ==> r[k + 1].top == r[k].top + r[k].height
  {
    var r := seq(count, k requires 0 <= k < count => ItemStyle(Top(firstIndex + k, itemHeight), itemHeight));
    forall k | 0 <= k < count - 1
      ensures r[k + 1].top == r[k].top + r[k].height
    {
      TopStep(firstIndex + k, itemHeight);
    }
    r
  }

  /** Any tiling that starts at `Top(firstIndex)` with boxes one item tall puts
      its k-th box at the top of item `firstIndex + k`. */
  lemma {:induction false} TilingPlacesItems(firstIndex: int, styles: seq<ItemStyle>, itemHeight: real, k: nat)
    requires |styles| > 0 && styles[0].top == Top(firstIndex, itemHeight)
    requires forall j :: 0 <= j < |styles| ==> styles[j].height == itemHeight
    requires forall j :: 0 <= j < |styles| - 1 ==> styles[j + 1].top == styles[j].top + styles[j].height
    requires k < |styles|
    ensures styles[k].top == Top(firstIndex + k, itemHeight)
  {
    if k > 0 {
      TilingPlacesItems(firstIndex, styles, itemHeight, k - 1);
    }
  }

  /** One run of `calculateThenApplyStyle` against a container: nothing when
      there is no container or no placeholder in it; otherwise the new slice
      of items, the placeholder height and a style for every item element the
      container holds. */
  function Recalculate<T>(c: Config<T>, container: Maybe<Container>): (f: Maybe<Frame<T>>)
    requires c.itemHeight > 0.0
    ensures f.Defined? <==> container.Defined? && container.value.hasPlaceholder
    ensures f.Defined? ==>
      var s := container.value.scrollTop;
      Top(f.value.firstIndex, c.itemHeight) <= s < Top(f.value.firstIndex + 1, c.itemHeight)
    ensures f.Defined? ==> |f.value.styles| == container.value.itemElements
  {
    match container
    case Undefined => Undefined
    case Defined(el) =>
      if !el.hasPlaceholder then Undefined
      else
        var firstIndex := FirstIndex(el.scrollTop, c.itemHeight);
        Defined(Frame(firstIndex,
                      Window(c.items, firstIndex, c.WindowSize()),
                      SpacerHeight(c.items, c.itemHeight),
                      Layout(firstIndex, el.itemElements, c.itemHeight)))
  }

  /** The frame a recalculation produces when the container holds a placeholder. */
  lemma FrameOf<T>(c: Config<T>, el: Container)
    requires c.itemHeight > 0.0 && el.hasPlaceholder
    ensures var first := FirstIndex(el.scrollTop, c.itemHeight);
      Recalculate(c, Defined(el)) == Defined(Frame(first, Window(c.items, first, c.WindowSize()),
        SpacerHeight(c.items, c.itemHeight), Layout(first, el.itemElements, c.itemHeight)))
  {
  }

  /** The hook's `finalItems` state after a scroll event: replaced by the
      recalculated slice, or kept when the recalculation bailed out. */
  function NextFinalItems<T>(c: Config<T>, finalItems: seq<T>, container: Maybe<Container>): (r: seq<T>)
    requires c.itemHeight > 0.0
    ensures container.Undefined? ==> r == finalItems
    ensures container.Defined? && !container.value.hasPlaceholder ==> r == finalItems
    ensures container.Defined? && container.value.hasPlaceholder ==>
      r == Window(c.items, FirstIndex(container.value.scrollTop, c.itemHeight), c.WindowSize())
  {
    match Recalculate(c, container)
    case Undefined => finalItems
    case Defined(f) => f.finalItems
  }

  /** After a scroll to a non-negative offset, the rendered items are the
      consecutive items starting at the first index, at most `windowSize` of
      them, and none once the first index is past the end of the list. */
  lemma RenderedSlice<T>(c: Config<T>, el: Container)
    requires c.itemHeight > 0.0 && 0.0 <= el.scrollTop && el.hasPlaceholder
    requires 0 <= c.WindowSize()
    ensures var f := Recalculate(c, Defined(el)).value;
      && 0 <= f.firstIndex
      && |f.finalItems| == Max(Min(f.firstIndex + c.WindowSize(), |c.items|) - f.firstIndex, 0)
      && |f.finalItems| <= c.WindowSize()
      && (forall k :: 0 <= k < |f.finalItems| ==> f.finalItems[k] == c.items[f.firstIndex + k])
      && (|c.items| <= f.firstIndex ==> f.finalItems == [])
  {
    FrameOf(c, el);
  }

  /** The k-th item element is placed at the top of item `firstIndex + k` and
      is one item tall; consecutive elements are `itemHeight` apart, and the
      first one starts at or above the scroll offset. */
  lemma ElementPlacement<T>(c: Config<T>, el: Container, k: nat)
    requires c.itemHeight > 0.0 && el.hasPlaceholder
    requires k < el.itemElements
    ensures var f := Recalculate(c, Defined(el)).value;
      && f.styles[k].top == Top(f.firstIndex + k, c.itemHeight)
      && f.styles[k].height == c.itemHeight
      && (k + 1 < el.itemElements ==> f.styles[k + 1].top - f.styles[k].top == c.itemHeight)
      && f.styles[0].top <= el.scrollTop
  {
    FrameOf(c, el);
    var f := Recalculate(c, Defined(el)).value;
    TilingPlacesItems(f.firstIndex, f.styles, c.itemHeight, k);
  }

  /** The placeholder is as tall as all items stacked one below the other,
      an amount that does not involve the scroll offset at all. */
  lemma SpacerIndependentOfScroll<T>(c: Config<T>, el: Container)
    requires c.itemHeight > 0.0 && el.hasPlaceholder
    ensures Recalculate(c, Defined(el)).value.spacerHeight == Stack(UniformHeights(|c.items|, c.itemHeight))
  {
    FrameOf(c, el);
    assert Recalculate(c, Defined(el)).value.spacerHeight == |c.items| as real * c.itemHeight;
    SpacerIsStackOfItems(|c.items|, c.itemHeight);
  }

  /** The box of item `i` lies between 0 and the bottom of item `n - 1`. */
  lemma BoxWithin(i: int, n: int, itemHeight: real)
    requires itemHeight > 0.0 && 0 <= i && i + 1 <= n
    ensures 0.0 <= Top(i, itemHeight) && Top(i + 1, itemHeight) <= Top(n, itemHeight)
  {
    assert Top(0, itemHeight) == 0.0;
    TopOrder(0, i, itemHeight);
    TopOrder(i + 1, n, itemHeight);
  }

  /** Every item of a window starting at a non-negative index lies within
      the stack of all items. */
  lemma WindowWithinStack<T>(items: seq<T>, first: int, windowSize: int, h: real)
    requires h > 0.0 && 0 <= first && 0 <= windowSize
    ensures forall i {:trigger Top(i, h)} :: first <= i < first + |Window(items, first, windowSize)| ==>
      0.0 <= Top(i, h) && Top(i + 1, h) <= Top(|items|, h)
  {
    var n := |Window(items, first, windowSize)|;
    assert n > 0 ==> first + n <= |items|;
    forall i {:trigger Top(i, h)} | first <= i < first + n
      ensures 0.0 <= Top(i, h) && Top(i + 1, h) <= Top(|items|, h)
    {
      BoxWithin(i, |items|, h);
    }
  }

  lemma RenderedWithinSpacer<T>(c: Config<T>, el: Container)
    requires c.itemHeight > 0.0 && 0.0 <= el.scrollTop && el.hasPlaceholder
    requires 0 <= c.WindowSize()
    ensures var f := Recalculate(c, Defined(el)).value;
      forall i {:trigger Top(i, c.itemHeight)} :: f.firstIndex <= i < f.firstIndex + |f.finalItems| ==>
        0.0 <= Top(i, c.itemHeight) && Top(i + 1, c.itemHeight) <= f.spacerHeight
  {
    FrameOf(c, el);
    WindowWithinStack(c.items, FirstIndex(el.scrollTop, c.itemHeight), c.WindowSize(), c.itemHeight);
  }

  /** A recalculation at the very top renders the same items the hook starts with. */
  lemma InitialMatchesTop<T>(c: Config<T>, el: Container)
    requires c.itemHeight > 0.0 && el.scrollTop == 0.0 && el.hasPlaceholder
    requires 0 <= c.WindowSize()
    ensures Recalculate(c, Defined(el)).value.finalItems == InitialItems(c)
  {
    FrameOf(c, el);
    FirstIndexOfTop(0, c.itemHeight);
  }

  /** An offset less than one item above the top (an overscroll) gives first
      index -1, which `slice` counts back from the end: nothing is rendered
      when the list holds at least `windowSize` items, and only the last item
      when it holds fewer. */
  lemma OverscrollAboveTop<T>(items: seq<T>, scrollTop: real, itemHeight: real, windowSize: int)
    requires itemHeight > 0.0
    requires -itemHeight <= scrollTop < 0.0
    requires 0 < windowSize
    ensures FirstIndex(scrollTop, itemHeight) == -1
    ensures windowSize <= |items| ==> Window(items, FirstIndex(scrollTop, itemHeight), windowSize) == []
    ensures 0 < |items| < windowSize ==> Window(items, FirstIndex(scrollTop, itemHeight), windowSize) == [items[|items| - 1]]
  {
    assert Top(-1, itemHeight) == -itemHeight;
    assert Top(0, itemHeight) == 0.0;
    FirstIndexUnique(scrollTop, itemHeight, -1);
  }
}
